=== FILE: README.md ===
# DV8 controller dashboard: state mirror, topic dispatcher and render state machine

This project models the two sequential pieces of logic in the DV8 robot
dashboard firmware (an ESP32 board with an LVGL display that follows the
robot over MQTT):

- **The topic dispatcher and state mirror** (`main/dv8_mqtt.c`,
  `main/dv8_mqtt.h`). An MQTT data event brings a topic and a JSON payload.
  An empty topic or payload is dropped. A payload that does not parse is
  dropped. Otherwise the topic is matched against nine `/robot/...` strings.
  For each key the topic owns and the payload contains, one of the ten
  atomic fields is overwritten. `cmd_vel` feeds two fields; every other topic
  feeds one.
- **The render state machine** (`main/lvgl_ui.c`). Each `lvgl_update_*`
  function maps a field value to widget commands: label text, added and
  removed styles, and re-centring of the label. The battery tile and the
  robot-mode tile also own a nullable blink-task handle. A flashing task is
  created only when the handle is NULL. Creation may fail for lack of
  memory; the handle then stays NULL and the next request tries again.
  Deleting the task resets the handle to NULL.

Modules:

- `Wrappers`: `Option`.
- `StateMirror`: the ten fields, `Get`, and `Store` (an atomic store, with C's
  double-to-int truncation for the integer fields).
- `Dispatcher`: `SaveValue`, the if/else topic chain (`Dispatch`), the data
  event (`OnData`), and a per-field routing table (`TopicOf`, `KeyOf`). The
  chain is proved equivalent to the table.
- `Widgets`: the widget commands, and `Apply`, which folds a command sequence
  into what is observable of a tile. That is the text, the attached styles,
  the last added style, and whether the label is centred.
- `Blink`: the handle slot, task creation and deletion, and one half-tick of
  each flashing task body.
- `Render`: the six `lvgl_update_*` functions. The e_stop, handbrake,
  autonomy, safety-mode and robot-mode updates are each stated against a
  lookup table for their tile. The battery-charge update is stated by its
  two cases: charging, and everything else.
- `Dashboard`: all tiles and both slots as one event-driven machine. It proves
  the "at most one live blink task per tile" invariant over any event sequence.

The JSON parser is a function parameter. Its result is `Option<map<string, real>>`,
and member lookup is an exact key match. The payload's numbers are reals.
Float fields copy them unchanged. Integer fields receive the value truncated
toward zero, as C converts an in-range double to int.

Three behaviours of the code are kept as written:

- The litter-picking blink alternates the unknown and **blue** styles
  (`main/lvgl_ui.c:160-170`), while the battery blink alternates unknown and
  normal.
- A `robot_mode` value outside {0,1,2,3,4,6,7} shows "Mode: ?" with the
  unknown style but does **not** stop a running litter-picking task
  (`main/lvgl_ui.c:302-305`).
- The battery blink is stopped by every `battery_is_charging` value other than
  1 (`main/lvgl_ui.c:192`).

## Model

| member | source | states |
|---|---|---|
| StateMirror.TruncateToInt | main/dv8_mqtt.c:33 | the stored int drops the fractional part toward zero, and an integral value is kept exactly |
| StateMirror.Coerce | main/dv8_mqtt.c:21-36 | a float field keeps the payload number; an int field holds an integer less than 1 away from it on the side of zero, and equal to it when it is integral |
| StateMirror.Store | main/dv8_mqtt.c:25 | after a store, reading the field gives the stored value and every other field reads as before |
| StateMirror.Extensionality | main/dv8_mqtt.h:4-13 | the mirror is exactly its ten fields: two states that read alike on every field are equal |
| StateMirror.StoreIdempotent | main/dv8_mqtt.c:33 | storing the same number twice gives the same state as storing it once |
| StateMirror.StoresCommute | main/dv8_mqtt.h:4-13 | fields are independent cells: stores to two different fields may be reordered |
| Dispatcher.SaveValue | main/dv8_mqtt.c:21-36 | a present key overwrites its field; an absent key leaves the whole state unchanged, not reset to zero; other fields are never touched |
| Dispatcher.Dispatch | main/dv8_mqtt.c:95-122 | a failed parse changes nothing; otherwise each field reads the payload value exactly when the topic is the field's routed topic and the field's key is present, and keeps its old value otherwise |
| Dispatcher.OnData | main/dv8_mqtt.c:84-122 | an empty topic or payload changes nothing; otherwise the parsed payload is routed per field as the routing table says |
| Dispatcher.EmptyMessageNeverParsed | main/dv8_mqtt.c:84-86 | for an empty topic or payload the result does not depend on the parser, and the state is unchanged |
| Dispatcher.UnparsedPayloadIgnored | main/dv8_mqtt.c:95-101 | a payload the parser rejects leaves every field unchanged |
| Dispatcher.SubscriptionsMatchRoutes | main/dv8_mqtt.c:63-71 | a topic is subscribed on connect exactly when the data branch routes some field from it |
| Dispatcher.SubscriptionsDistinct | main/dv8_mqtt.c:63-71 | no topic is subscribed twice |
| Dispatcher.UnknownTopicIgnored | main/dv8_mqtt.c:103-122 | a topic outside the nine leaves the state unchanged, since the chain has no final else |
| Dispatcher.OnlyCmdVelIsShared | main/dv8_mqtt.c:103-122 | two different fields share a topic only if they are linear_x and angular_z |
| Dispatcher.SingleFieldTopic | main/dv8_mqtt.c:106-121 | a single-field topic writes only its own field, from its key when present, and all nine other fields are unchanged |
| Dispatcher.CmdVelIndependent | main/dv8_mqtt.c:103-105 | cmd_vel sets linear_x and angular_z each only when its own key is present, and touches nothing else |
| Dispatcher.DispatchIdempotent | main/dv8_mqtt.c:103-122 | dispatching the same message twice gives the state dispatching it once gives |
| Dispatcher.CmdVelFromInitial | main/dv8_mqtt.c:103-105 | from the zero-initialised mirror, a cmd_vel message with both keys sets linear_x and angular_z and every other field still reads zero |
| Dispatcher.WriteThenRead | main/dv8_mqtt.c:24-25 | a present key on its field's topic is read back as the payload value (for integer fields, when the value is integral) |
| Blink.HalfTick | main/lvgl_ui.c:129-174 | a half-tick detaches both alternating styles, then attaches exactly one: unknown in the first half, the partner in the second; text and alignment are untouched |
| Blink.Create | main/lvgl_ui.c:190 | when the task can be allocated, a fresh task becomes live and the handle names it, leaving the other live tasks as they were; when it cannot, nothing changes |
| Blink.Delete | main/lvgl_ui.c:196-197 | deleting removes the handle's task from the live set and resets the handle to NULL |
| Blink.StartIfIdle | main/lvgl_ui.c:189-191 | a running task is left alone; a failed creation leaves the slot unchanged; a successful one makes the handle non-NULL with exactly one task live, created exactly once |
| Blink.StopIfRunning | main/lvgl_ui.c:256-259 | after the guarded stop the handle is NULL and no task is live; stopping when idle changes nothing |
| Blink.TaskTick | main/lvgl_ui.c:133-148 | a live task's half-tick detaches both alternating styles, attaches the one for its phase and flips the phase; with no live task no command is issued |
| Blink.TicksAlternate | main/lvgl_ui.c:153-174 | two consecutive half-ticks show unknown and the partner style, one each, and bring the task back to its phase |
| Blink.UnguardedCreateLeaks | main/lvgl_ui.c:189-191 | without the NULL check a second create leaves two live tasks and a handle that no longer names them all |
| Render.UpdateEStop | main/lvgl_ui.c:208-215 | e_stop 1 adds the warning style and any other value the unknown style; nothing else changes |
| Render.UpdateHandbrake | main/lvgl_ui.c:217-224 | handbrake 1 adds the warning style and any other value the unknown style; nothing else changes |
| Render.UpdateAutonomous | main/lvgl_ui.c:226-236 | 1 shows "Manual Control" in blue and any other value "Autonomous Control" in unknown; the label is re-centred on both branches |
| Render.UpdateSafetyMode | main/lvgl_ui.c:238-251 | 1 shows "Safety Mode: On"/normal, 0 "Safety Mode: Off"/warning, anything else "Safety Mode: Unknown"/unknown; re-centred every call |
| Render.StopAndShow | main/lvgl_ui.c:255-261 | a stopping branch leaves the slot stopped and shows its label and style, re-centred |
| Render.UpdateRobotMode | main/lvgl_ui.c:253-307 | the label, style and blink action match the robot-mode table for every value, with unlisted values keeping the task, and the label is re-centred after every branch |
| Render.StopRepaint | main/lvgl_ui.c:199-203 | the repaint after a stop leaves normal and unknown detached, then unknown attached and last |
| Render.NotChargingEffect | main/lvgl_ui.c:193-203 | adding unknown before the repaint tail changes nothing the tail does not; without a tail the tile just gains unknown |
| Render.UpdateBatteryCharge | main/lvgl_ui.c:186-205 | 1 starts the task only when the handle is NULL and touches no style; other values stop it, and the tile ends with unknown attached and, after a stop, normal detached |
| Render.RecognisedModesStopBlink | main/lvgl_ui.c:255-301 | modes 0, 1, 2, 4, 6 and 7 leave the handle NULL and no task live, then show a style and re-centre |
| Render.LitterPickingStartsOnce | main/lvgl_ui.c:269-273 | mode 3 shows "Mode: Litter Picking" and applies no style; a repeated 3 never creates a second task, and after a failed creation the next 3 that succeeds starts one |
| Render.UnlistedModeKeepsBlink | main/lvgl_ui.c:302-306 | an unlisted mode shows "Mode: ?" with unknown but leaves the blink slot, and so a running task, unchanged |
| Render.SafetyModeOtherIsUnknown | main/lvgl_ui.c:246-249 | safety_mode values other than 0 and 1 render "Safety Mode: Unknown" with the unknown style |
| Render.BatteryStopEndsUnknown | main/lvgl_ui.c:192-204 | after a non-charging value the final style is unknown, normal is detached if a task was stopped, and an idle slot is unchanged |
| Dashboard.Next | main/lvgl_ui.c:129-306 | every update and every tick keeps each handle in agreement with the live tasks of its tile; each event changes only its own tile and slot; a tick keeps the handle and the live tasks, and a live battery or litter-picking tick detaches the unknown style and the normal or blue style and attaches the style of the current phase |
| Dashboard.AtMostOneBlinkTask | main/lvgl_ui.c:186-307 | across any event sequence each handle is non-NULL exactly when one task is live, so no tile has two |
| Dashboard.BatteryQuiet | main/lvgl_ui.c:129-150 | with no live battery task and no charging update, no modelled event changes the battery tile or its slot (the battery-percentage label update is not modelled) |
| Dashboard.NoRepaintAfterStop | main/lvgl_ui.c:195-203 | given the handle invariant, after a battery stop no modelled event repaints the tile until the next charging update: the style stays unknown and no task is live |
| Dashboard.ModeScenario | main/lvgl_ui.c:255-268 | the modes idle, litter picking, coverage create exactly one task and leave none live, ending on "Mode: Coverage" in normal |
| Dashboard.ChargeToggleScenario | main/lvgl_ui.c:186-205 | toggling charging 1, 0, 1, 0 ends with no live battery task and the unknown style, whether or not each creation succeeds |

## Left out

- MQTT transport and lifecycle are network plumbing and are not modelled: the subscribe calls themselves, connect, disconnect and error logging, `mqtt_app_start`, `mqtt_module_start`, the broker-URL reader and log-level setup. The subscription list is kept only as a constant.
- The commented-out second event handler in `main/dv8_mqtt.c` is dead code.
- JSON parsing is a parameter, because it is a library call. Its result is an exact-key map of numbers. Case-insensitive member lookup and non-numeric members are not modelled.
- StateMirror.TruncateToInt: models C's truncation only for in-range values. The integers are unbounded, because a NaN or out-of-range double-to-int conversion is undefined behaviour in C.
- Float fields are reals. Single-precision rounding of the stored float is not modelled.
- The topic and payload are modelled as strings. The fixed-length copies into stack buffers are not modelled, nor is the truncation at an embedded NUL byte that `strncpy` and `strcmp` would cause.
- `lvgl_update_battery_percentage` is not modelled, because it is floating-point `%.1f` formatting.
- Concurrency is not modelled: the `_Atomic` stores, the LVGL lock, the 500 ms `vTaskDelay` timing, and scheduling. Task deletion is instantaneous, so the deletion of a task that holds the LVGL lock is not modelled.
- Widget construction, layout and colours are not modelled (`example_lvgl_demo_ui`). Centring is recorded as a flag, without geometry.
- LVGL style stacking is reduced to a set of attached styles plus the last style added. The order of styles in the stack and duplicate additions are not modelled.
- `main/main.c` is not part of this model; `main/lvgl_ui.c:16` says only that the shared globals live there. The caller of the `lvgl_update_*` functions is not part of this model either. Two assumptions stand in for them: the fields start at zero, and the updates and ticks may arrive in any order.

=== FILE: blink.dfy ===
/** Blink tasks: the nullable task handle each blinking tile owns
    (battery_flash_task_handle, litter_picking_flash_task_handle) and the
    body of the flashing task (flash_battery_style_task,
    flash_litter_picking_style_task) in main/lvgl_ui.c. */
module Blink {
  import opened Wrappers
  import opened Widgets

  /** Which of the two flashing task bodies a task runs. */
  datatype Kind = BatteryFlash | LitterPickingFlash

  /** The style a flashing task alternates with the unknown style: the
      battery task uses normal, the litter-picking task uses blue. */
  function Partner(k: Kind): Style {
    match k
    case BatteryFlash => Normal
    case LitterPickingFlash => Blue
  }

  /** The style shown by a half-tick: unknown in the first half of the
      task's loop, its partner in the second. */
  function Shown(k: Kind, firstHalf: bool): Style {
    if firstHalf then Unknown else Partner(k)
  }

  /** One half of the task's loop body under the UI lock: detach both
      alternating styles, then attach the one to show. */
  function HalfTick(k: Kind, firstHalf: bool): (cmds: seq<Cmd>)
    ensures forall w :: Apply(w, cmds) == Show(Clear(w, {Unknown, Partner(k)}), None, Some(Shown(k, firstHalf)), false)
  {
    var p := Partner(k);
    var cmds := if firstHalf then [RemoveStyle(p), RemoveStyle(Unknown), AddStyle(Unknown)]
                else [RemoveStyle(Unknown), RemoveStyle(p), AddStyle(p)];
    ApplyShortAll(cmds);
    assert forall ss: set<Style> :: ss - {p} - {Unknown} == ss - {Unknown} - {p} == ss - {Unknown, p};
    cmds
  }

  /** A blink slot: the handle variable (None is NULL), the set of this
      tile's flashing tasks that are alive, the next task identity the
      scheduler hands out, and where the live task is in its loop. The live
      set is bookkeeping for the proofs; the source has only the handle. */
  datatype Slot = Slot(handle: Option<nat>, live: set<nat>, next: nat, firstHalf: bool)

  /** No task yet, handle NULL. */
  const Idle: Slot := Slot(None, {}, 0, true)

  /** The handle is non-NULL exactly when a task is alive, and then it
      names that task and no other is alive. */
  predicate Consistent(s: Slot) {
    && s.live == (if s.handle.Some? then {s.handle.value} else {})
    && (s.handle.Some? ==> s.handle.value < s.next)
  }

  /** xTaskCreate storing into the handle. When the scheduler can allocate
      the task, a fresh task joins the live set, starting at the top of its
      loop, and the handle names it. When it cannot, xTaskCreate fails
      without writing the handle and nothing changes; the source ignores
      the return value either way. Nothing else is checked here. */
  function Create(s: Slot, spawned: bool): (r: Slot)
    ensures !spawned ==> r == s
    ensures spawned ==> r.handle.Some? && r.handle.value in r.live && r.firstHalf
    ensures spawned ==> r.live - {r.handle.value} == s.live - {r.handle.value}
    ensures spawned && Consistent(s) ==> r.handle.value !in s.live && r.handle != s.handle
  {
    if spawned then Slot(Some(s.next), s.live + {s.next}, s.next + 1, true) else s
  }

  /** vTaskDelete on the handle, then the handle reset to NULL. */
  function Delete(s: Slot): (r: Slot)
    requires s.handle.Some?
    ensures r.handle.None? && r.live == s.live - {s.handle.value}
    ensures Consistent(s) ==> Consistent(r) && r.live == {}
  {
    s.(handle := None, live := s.live - {s.handle.value})
  }

  /** "Start only when the handle is NULL". A failed allocation leaves the
      handle NULL, so the next request tries again. */
  function StartIfIdle(s: Slot, spawned: bool): (r: Slot)
    ensures s.handle.Some? ==> r == s
    ensures s.handle.None? && !spawned ==> r == s
    ensures spawned ==> r.handle.Some?
    ensures Consistent(s) ==> Consistent(r) && |r.live| <= 1
    ensures Consistent(s) && spawned ==> |r.live| == 1
    ensures Consistent(s) && s.handle.None? && spawned ==> r.next == s.next + 1
  {
    if s.handle.None? then Create(s, spawned) else s
  }

  /** "Stop only when the handle is not NULL": stopping when idle is a no-op. */
  function StopIfRunning(s: Slot): (r: Slot)
    ensures r.handle.None?
    ensures s.handle.None? ==> r == s
    ensures Consistent(s) ==> Consistent(r) && r.live == {}
  {
    if s.handle.Some? then Delete(s) else s
  }

  /** Commands issued by a tile update together with the tile's slot afterwards. */
  datatype Step = Step(cmds: seq<Cmd>, slot: Slot)

  /** One half-tick of the tile's flashing task. Ticks come from live tasks,
      whatever the handle says: with no live task nothing happens. */
  function TaskTick(k: Kind, s: Slot): (r: Step)
    ensures s.live == {} ==> r.cmds == [] && r.slot == s
    ensures s.live != {} ==>
      forall w :: Apply(w, r.cmds) == Show(Clear(w, {Unknown, Partner(k)}), None, Some(Shown(k, s.firstHalf)), false)
    ensures r.slot.handle == s.handle && r.slot.live == s.live && r.slot.next == s.next
    ensures s.live != {} ==> r.slot.firstHalf != s.firstHalf
  {
    if s.live == {} then Step([], s)
    else Step(HalfTick(k, s.firstHalf), s.(firstHalf := !s.firstHalf))
  }

  /** The task alternates: two consecutive half-ticks show unknown and the
      partner style, one each, and bring the task back to where it was. */
  lemma TicksAlternate(k: Kind, s: Slot, w: Widget)
    requires s.live != {}
    ensures var t1 := TaskTick(k, s); var t2 := TaskTick(k, t1.slot);
      && {Apply(w, t1.cmds).last, Apply(w, t2.cmds).last} == {Some(Unknown), Some(Partner(k))}
      && t2.slot == s
  {
    var t1 := TaskTick(k, s);
    var t2 := TaskTick(k, t1.slot);
    assert Apply(w, t1.cmds).last == Some(Shown(k, s.firstHalf));
    assert Apply(w, t2.cmds).last == Some(Shown(k, !s.firstHalf));
  }

  /** Why the NULL check matters: creating while a task is alive overwrites
      the handle and leaves two live tasks, one of them unreachable. */
  lemma UnguardedCreateLeaks(s: Slot)
    requires Consistent(s) && s.handle.Some?
    ensures |Create(s, true).live| == 2 && !Consistent(Create(s, true))
  {
    var r := Create(s, true);
    assert r.live == {s.handle.value, s.next};
  }
}

=== FILE: dashboard.dfy ===
/** The dashboard as one state machine: the six tiles, the two blink slots,
    and the events that drive them (a field update handed to its
    lvgl_update_* function, or a half-tick of a live flashing task). */
module Dashboard {
  import opened Wrappers
  import opened Widgets
  import opened Blink
  import opened Render

  datatype Ui = Ui(
    eStop: Widget, handbrake: Widget, autonomous: Widget, safetyMode: Widget,
    robotMode: Widget, battery: Widget,
    batteryTask: Slot, litterTask: Slot)

  datatype Event =
    | ChargeUpdate(v: int, spawned: bool)
    | EStopUpdate(v: int)
    | HandbrakeUpdate(v: int)
    | AutonomousUpdate(v: int)
    | SafetyModeUpdate(v: int)
    | RobotModeUpdate(v: int, spawned: bool)
    | BatteryTick
    | LitterPickingTick

  /** A tile before any update: blank, unstyled, no task. */
  const Blank: Widget := Widget("", {}, None, false)
  const Start: Ui := Ui(Blank, Blank, Blank, Blank, Blank, Blank, Idle, Idle)

  /** Both handles agree with the tasks that are alive. */
  predicate Inv(ui: Ui) {
    Consistent(ui.batteryTask) && Consistent(ui.litterTask)
  }

  /** One event. Every event keeps the handles consistent and changes only
      its own tile and slot; a tick keeps the handle and the live tasks, and
      a live tick detaches the unknown and partner styles and attaches the
      phase's style. */
  function Next(ui: Ui, e: Event): (r: Ui)
    ensures Inv(ui) ==> Inv(r)
    ensures !e.ChargeUpdate? && !e.BatteryTick? ==> r.battery == ui.battery && r.batteryTask == ui.batteryTask
    ensures !e.RobotModeUpdate? && !e.LitterPickingTick? ==> r.robotMode == ui.robotMode && r.litterTask == ui.litterTask
    ensures !e.EStopUpdate? ==> r.eStop == ui.eStop
    ensures !e.HandbrakeUpdate? ==> r.handbrake == ui.handbrake
    ensures !e.AutonomousUpdate? ==> r.autonomous == ui.autonomous
    ensures !e.SafetyModeUpdate? ==> r.safetyMode == ui.safetyMode
    ensures e.BatteryTick? ==> r.batteryTask.handle == ui.batteryTask.handle && r.batteryTask.live == ui.batteryTask.live
    ensures e.LitterPickingTick? ==> r.litterTask.handle == ui.litterTask.handle && r.litterTask.live == ui.litterTask.live
    ensures e.BatteryTick? && ui.batteryTask.live != {} ==>
      r.battery == Show(Clear(ui.battery, {Unknown, Normal}), None, Some(if ui.batteryTask.firstHalf then Unknown else Normal), false)
    ensures e.LitterPickingTick? && ui.litterTask.live != {} ==>
      r.robotMode == Show(Clear(ui.robotMode, {Unknown, Blue}), None, Some(if ui.litterTask.firstHalf then Unknown else Blue), false)
  {
    match e
    case ChargeUpdate(v, spawned) =>
      var st := UpdateBatteryCharge(v, ui.batteryTask, spawned);
      ui.(battery := Apply(ui.battery, st.cmds), batteryTask := st.slot)
    case EStopUpdate(v) => ui.(eStop := Apply(ui.eStop, UpdateEStop(v)))
    case HandbrakeUpdate(v) => ui.(handbrake := Apply(ui.handbrake, UpdateHandbrake(v)))
    case AutonomousUpdate(v) => ui.(autonomous := Apply(ui.autonomous, UpdateAutonomous(v)))
    case SafetyModeUpdate(v) => ui.(safetyMode := Apply(ui.safetyMode, UpdateSafetyMode(v)))
    case RobotModeUpdate(v, spawned) =>
      var st := UpdateRobotMode(v, ui.litterTask, spawned);
      ui.(robotMode := Apply(ui.robotMode, st.cmds), litterTask := st.slot)
    case BatteryTick =>
      var st := TaskTick(BatteryFlash, ui.batteryTask);
      ui.(battery := Apply(ui.battery, st.cmds), batteryTask := st.slot)
    case LitterPickingTick =>
      var st := TaskTick(LitterPickingFlash, ui.litterTask);
      ui.(robotMode := Apply(ui.robotMode, st.cmds), litterTask := st.slot)
  }

  /** A sequence of events, in order. */
  function Run(ui: Ui, es: seq<Event>): Ui
    decreases |es|
  {
    if es == [] then ui else Run(Next(ui, es[0]), es[1..])
  }

  /** Across any sequence of updates and ticks each handle is non-NULL
      exactly when one task is alive, so no tile ever has two live tasks. */
  lemma {:induction false} AtMostOneBlinkTask(ui: Ui, es: seq<Event>)
    requires Inv(ui)
    ensures var r := Run(ui, es);
      && Inv(r)
      && |r.batteryTask.live| <= 1 && |r.litterTask.live| <= 1
      && (r.batteryTask.handle.Some? <==> |r.batteryTask.live| == 1)
      && (r.litterTask.handle.Some? <==> |r.litterTask.live| == 1)
    decreases |es|
  {
    if es != [] {
      AtMostOneBlinkTask(Next(ui, es[0]), es[1..]);
    }
  }

  /** While the battery slot has no live task and no charging update
      arrives, no modelled event touches the battery tile or its slot: ticks
      need a live task, and the other modelled updates drive other tiles.
      The battery-percentage label update is not modelled. */
  lemma {:induction false} BatteryQuiet(ui: Ui, es: seq<Event>)
    requires ui.batteryTask.live == {}
    requires forall i :: 0 <= i < |es| ==> !es[i].ChargeUpdate?
    ensures Run(ui, es).battery == ui.battery && Run(ui, es).batteryTask == ui.batteryTask
    decreases |es|
  {
    if es != [] {
      var next := Next(ui, es[0]);
      assert next.battery == ui.battery && next.batteryTask == ui.batteryTask;
      assert forall i :: 0 <= i < |es[1..]| ==> es[1..][i] == es[i + 1];
      BatteryQuiet(next, es[1..]);
    }
  }

  /** After a non-charging update no flashing task can repaint the battery
      tile: until the next charging update, whatever other modelled updates
      and ticks follow, the tile keeps the unknown style and the slot stays
      idle. This relies on the handle invariant: deleting the handle's task
      leaves no live task behind. */
  lemma NoRepaintAfterStop(ui: Ui, v: int, spawned: bool, es: seq<Event>)
    requires Inv(ui) && v != 1
    requires forall i :: 0 <= i < |es| ==> !es[i].ChargeUpdate?
    ensures var stopped := Next(ui, ChargeUpdate(v, spawned));
      && stopped.battery.last == Some(Unknown)
      && Run(stopped, es).battery == stopped.battery
      && Run(stopped, es).batteryTask.live == {}
  {
    var stopped := Next(ui, ChargeUpdate(v, spawned));
    BatteryStopEndsUnknown(v, ui.batteryTask, spawned, ui.battery);
    BatteryQuiet(stopped, es);
  }

  /** Idle, litter picking, coverage: exactly one task is created (on
      entering litter picking) and it is gone after leaving it. */
  lemma ModeScenario(a: bool, c: bool)
    ensures var r := Run(Start, [RobotModeUpdate(1, a), RobotModeUpdate(3, true), RobotModeUpdate(2, c)]);
      && r.litterTask.next == 1 && r.litterTask.live == {} && r.litterTask.handle.None?
      && r.robotMode.text == "Mode: Coverage" && r.robotMode.last == Some(Normal)
  {
    var es := [RobotModeUpdate(1, a), RobotModeUpdate(3, true), RobotModeUpdate(2, c)];
    var u1 := Next(Start, es[0]);
    var u2 := Next(u1, es[1]);
    var u3 := Next(u2, es[2]);
    assert u1.litterTask == Idle;
    assert u2.litterTask.next == 1 && u2.litterTask.handle == Some(0);
    assert es[1..][1..][1..] == [];
    assert Run(Start, es) == Run(u1, es[1..]) == Run(u2, es[1..][1..]) == Run(u3, es[1..][1..][1..]) == u3;
  }

  /** Toggling charging 1, 0, 1, 0 never has two live battery tasks and ends
      idle with the unknown style, whether or not each start succeeds. */
  lemma ChargeToggleScenario(ui: Ui, a: bool, b: bool, c: bool, d: bool)
    requires Inv(ui)
    ensures var r := Run(ui, [ChargeUpdate(1, a), ChargeUpdate(0, b), ChargeUpdate(1, c), ChargeUpdate(0, d)]);
      && r.batteryTask.live == {} && r.batteryTask.handle.None?
      && r.battery.last == Some(Unknown)
  {
    var es := [ChargeUpdate(1, a), ChargeUpdate(0, b), ChargeUpdate(1, c), ChargeUpdate(0, d)];
    var u1 := Next(ui, es[0]);
    var u2 := Next(u1, es[1]);
    var u3 := Next(u2, es[2]);
    var u4 := Next(u3, es[3]);
    BatteryStopEndsUnknown(0, u3.batteryTask, d, u3.battery);
    assert es[1..][1..][1..][1..] == [];
    assert Run(ui, es) == Run(u1, es[1..]) == Run(u2, es[1..][1..]) == Run(u3, es[1..][1..][1..]) == Run(u4, []);
  }
}

=== FILE: dispatcher.dfy ===
/** The topic dispatcher: the MQTT_EVENT_DATA branch of the MQTT event
    handler (main/dv8_mqtt.c), together with save_value_float and
    save_value_int. */
module Dispatcher {
  import opened Wrappers
  import opened StateMirror

  /** A parsed JSON payload, abstracted to its numeric members by exact key. */
  type Doc = map<string, real>

  const CmdVelTopic := "/robot/control/cmd_vel"
  const BatteryPercentageTopic := "/robot/state/battery_percentage"
  const BatteryIsChargingTopic := "/robot/state/battery_is_charging"
  const EStopTopic := "/robot/state/e_stop"
  const HandbrakeTopic := "/robot/state/handbrake"
  const DirectStatusTopic := "/robot/state/direct_status"
  const RobotModeTopic := "/robot/state/robot_mode"
  const BrushSpeedTopic := "/robot/control/brush_speed"
  const SafetyModeTopic := "/robot/state/safety_mode"

  /** The topics subscribed to when the client connects, in subscription order. */
  const Subscriptions: seq<string> := [
    CmdVelTopic, BatteryPercentageTopic, BatteryIsChargingTopic, EStopTopic,
    HandbrakeTopic, DirectStatusTopic, RobotModeTopic, BrushSpeedTopic, SafetyModeTopic]

  /** Routing table, one row per field: the topic that carries the field. */
  function TopicOf(f: Field): string {
    match f
    case LinearX => CmdVelTopic
    case AngularZ => CmdVelTopic
    case BatteryPercentage => BatteryPercentageTopic
    case BrushSpeed => BrushSpeedTopic
    case BatteryIsCharging => BatteryIsChargingTopic
    case EStop => EStopTopic
    case Handbrake => HandbrakeTopic
    case DirectStatus => DirectStatusTopic
    case RobotMode => RobotModeTopic
    case SafetyMode => SafetyModeTopic
  }

  /** Routing table, one row per field: the payload key that carries the field. */
  function KeyOf(f: Field): string {
    match f
    case LinearX => "linear_x"
    case AngularZ => "angular_z"
    case BatteryPercentage => "battery_percentage"
    case BrushSpeed => "brush_speed"
    case BatteryIsCharging => "battery_is_charging"
    case EStop => "e_stop"
    case Handbrake => "handbrake"
    case DirectStatus => "direct_status"
    case RobotMode => "robot_mode"
    case SafetyMode => "safety_mode"
  }

  /** What field f reads after a parsed message (topic, doc), according to
      the routing table: the payload's value when the topic carries f and
      the payload has f's key, the old value otherwise. */
  function Routed(s: State, topic: string, doc: Doc, f: Field): real {
    if topic == TopicOf(f) && KeyOf(f) in doc then Coerce(f, doc[KeyOf(f)]) else Get(s, f)
  }

  /** save_value_float / save_value_int: look the key up and, only when it is
      present, store its number into the field. */
  function SaveValue(s: State, doc: Doc, f: Field, key: string): (r: State)
    ensures key in doc ==> Get(r, f) == Coerce(f, doc[key])
    ensures key !in doc ==> r == s
    ensures forall g :: g != f ==> Get(r, g) == Get(s, g)
  {
    if key in doc then Store(s, f, doc[key]) else s
  }

  /** The if/else chain over the nine topics, applied to a parse result.
      A failed parse and an unknown topic both fall through untouched. */
  function Dispatch(s: State, topic: string, parsed: Option<Doc>): (r: State)
    ensures parsed.None? ==> r == s
    ensures parsed.Some? ==> forall f :: Get(r, f) == Routed(s, topic, parsed.value, f)
  {
    match parsed
    case None => s
    case Some(doc) =>
      if topic == CmdVelTopic then
        SaveValue(SaveValue(s, doc, LinearX, "linear_x"), doc, AngularZ, "angular_z")
      else if topic == BatteryPercentageTopic then
        SaveValue(s, doc, BatteryPercentage, "battery_percentage")
      else if topic == BatteryIsChargingTopic then
        SaveValue(s, doc, BatteryIsCharging, "battery_is_charging")
      else if topic == EStopTopic then
        SaveValue(s, doc, EStop, "e_stop")
      else if topic == HandbrakeTopic then
        SaveValue(s, doc, Handbrake, "handbrake")
      else if topic == DirectStatusTopic then
        SaveValue(s, doc, DirectStatus, "direct_status")
      else if topic == RobotModeTopic then
        SaveValue(s, doc, RobotMode, "robot_mode")
      else if topic == BrushSpeedTopic then
        SaveValue(s, doc, BrushSpeed, "brush_speed")
      else if topic == SafetyModeTopic then
        SaveValue(s, doc, SafetyMode, "safety_mode")
      else
        s
  }

  /** One MQTT_EVENT_DATA event. An empty topic or payload is dropped before
      the payload is handed to the parser; otherwise the parser's result is
      dispatched. The JSON parser is a parameter: it is a library call. */
  function OnData(s: State, topic: string, payload: string, parse: string -> Option<Doc>): (r: State)
    ensures |topic| == 0 || |payload| == 0 ==> r == s
    ensures forall f :: Get(r, f) ==
                          (if |topic| > 0 && |payload| > 0 && parse(payload).Some?
                           then Routed(s, topic, parse(payload).value, f)
                           else Get(s, f))
  {
    if |topic| == 0 || |payload| == 0 then s else Dispatch(s, topic, parse(payload))
  }

  /** An empty topic or payload is dropped without consulting the parser:
      any two parsers give the same (unchanged) state. */
  lemma EmptyMessageNeverParsed(s: State, topic: string, payload: string,
                                p: string -> Option<Doc>, q: string -> Option<Doc>)
    requires |topic| == 0 || |payload| == 0
    ensures OnData(s, topic, payload, p) == OnData(s, topic, payload, q) == s
  {
  }

  /** A payload the parser rejects leaves every field unchanged. */
  lemma UnparsedPayloadIgnored(s: State, topic: string, payload: string, parse: string -> Option<Doc>)
    requires parse(payload).None?
    ensures OnData(s, topic, payload, parse) == s
  {
  }

  /** The subscription list and the dispatch chain agree: a topic is
      subscribed to exactly when some field is routed from it. */
  lemma SubscriptionsMatchRoutes(topic: string)
    ensures topic in Subscriptions <==> exists f :: TopicOf(f) == topic
  {
    if topic in Subscriptions {
      var i :| 0 <= i < |Subscriptions| && Subscriptions[i] == topic;
      var fs := [LinearX, BatteryPercentage, BatteryIsCharging, EStop, Handbrake,
                 DirectStatus, RobotMode, BrushSpeed, SafetyMode];
      assert TopicOf(fs[i]) == topic;
    }
  }

  /** Each topic is subscribed to once. */
  lemma SubscriptionsDistinct()
    ensures forall i, j :: 0 <= i < j < |Subscriptions| ==> Subscriptions[i] != Subscriptions[j]
  {
  }

  /** A topic outside the nine leaves every field unchanged: the chain has
      no final else. */
  lemma UnknownTopicIgnored(s: State, topic: string, doc: Doc)
    requires topic !in Subscriptions
    ensures Dispatch(s, topic, Some(doc)) == s
  {
    var r := Dispatch(s, topic, Some(doc));
    forall f ensures Get(r, f) == Get(s, f) {
      SubscriptionsMatchRoutes(topic);
    }
    Extensionality(r, s);
  }

  /** Only cmd_vel carries two fields; every other topic carries exactly one. */
  lemma OnlyCmdVelIsShared(f: Field, g: Field)
    requires f != g && TopicOf(f) == TopicOf(g)
    ensures {f, g} == {LinearX, AngularZ}
  {
  }

  /** A single-field topic writes its own field and leaves the nine others alone. */
  lemma SingleFieldTopic(s: State, f: Field, doc: Doc)
    requires f != LinearX && f != AngularZ
    ensures var r := Dispatch(s, TopicOf(f), Some(doc));
      && (KeyOf(f) in doc ==> Get(r, f) == Coerce(f, doc[KeyOf(f)]))
      && (KeyOf(f) !in doc ==> Get(r, f) == Get(s, f))
      && forall g :: g != f ==> Get(r, g) == Get(s, g)
  {
    var r := Dispatch(s, TopicOf(f), Some(doc));
    forall g | g != f ensures Get(r, g) == Get(s, g) {
      if TopicOf(g) == TopicOf(f) {
        OnlyCmdVelIsShared(f, g);
      }
    }
  }

  /** cmd_vel updates linear_x and angular_z independently, each only when
      its own key is present, and nothing else. */
  lemma CmdVelIndependent(s: State, doc: Doc)
    ensures var r := Dispatch(s, CmdVelTopic, Some(doc));
      && Get(r, LinearX) == (if "linear_x" in doc then doc["linear_x"] else s.linearX)
      && Get(r, AngularZ) == (if "angular_z" in doc then doc["angular_z"] else s.angularZ)
      && forall g :: g != LinearX && g != AngularZ ==> Get(r, g) == Get(s, g)
  {
    var r := Dispatch(s, CmdVelTopic, Some(doc));
    assert Get(r, LinearX) == Routed(s, CmdVelTopic, doc, LinearX);
    assert Get(r, AngularZ) == Routed(s, CmdVelTopic, doc, AngularZ);
  }

  /** Dispatching the same message twice gives the state dispatching it once gives. */
  lemma DispatchIdempotent(s: State, topic: string, parsed: Option<Doc>)
    ensures Dispatch(Dispatch(s, topic, parsed), topic, parsed) == Dispatch(s, topic, parsed)
  {
    if parsed.Some? {
      var once := Dispatch(s, topic, parsed);
      var twice := Dispatch(once, topic, parsed);
      forall f ensures Get(twice, f) == Get(once, f) {
      }
      Extensionality(twice, once);
    }
  }

  /** Write-then-read: an integral payload value present under the field's
      key on the field's topic is read back exactly. */
  lemma WriteThenRead(s: State, f: Field, doc: Doc)
    requires KeyOf(f) in doc
    requires IsFloat(f) || doc[KeyOf(f)] == doc[KeyOf(f)].Floor as real
    ensures Get(Dispatch(s, TopicOf(f), Some(doc)), f) == doc[KeyOf(f)]
  {
    assert Get(Dispatch(s, TopicOf(f), Some(doc)), f) == Routed(s, TopicOf(f), doc, f);
  }

  /** From the zero-initialised mirror, a cmd_vel message carrying both
      keys sets exactly linear_x and angular_z; every other field still
      reads zero. */
  lemma CmdVelFromInitial(x: real, z: real)
    ensures var r := Dispatch(Initial, CmdVelTopic, Some(map["linear_x" := x, "angular_z" := z]));
      && Get(r, LinearX) == x && Get(r, AngularZ) == z
      && forall g :: g != LinearX && g != AngularZ ==> Get(r, g) == 0.0
  {
    var doc := map["linear_x" := x, "angular_z" := z];
    CmdVelIndependent(Initial, doc);
  }
}

=== FILE: render.dfy ===
/** The render state machine: the lvgl_update_* functions of main/lvgl_ui.c.
    Each update maps a field value (and, for the two blinking tiles, the
    tile's blink slot) to the widget commands it issues. Their meaning is
    stated against lookup tables, one per tile. */
module Render {
  import opened Wrappers
  import opened Widgets
  import opened Blink

  /** A label text together with the style shown beside it. */
  datatype Look = Look(text: string, style: Style)

  /** What a robot_mode update does to the litter-picking blink task. */
  datatype TaskAction = KeepTask | StartTask | StopTask

  /** One row of the robot-mode table. No style is applied on entering
      litter picking: the flashing task owns the style then. */
  datatype ModeRow = ModeRow(text: string, style: Option<Style>, task: TaskAction)

  /** Table lookup with a default for values the table does not list. */
  function Lookup<V>(table: map<int, V>, v: int, default: V): V {
    if v in table then table[v] else default
  }

  /** e_stop and handbrake: 1 is the alarm; anything else is greyed out. */
  const AlarmStyles: map<int, Style> := map[1 := Warning]

  /** direct_status: 1 is manual control; anything else is autonomous. */
  const AutonomyLooks: map<int, Look> := map[1 := Look("Manual Control", Blue)]
  const AutonomousLook := Look("Autonomous Control", Unknown)

  /** safety_mode: on, off, or anything else. */
  const SafetyLooks: map<int, Look> := map[
    1 := Look("Safety Mode: On", Normal),
    0 := Look("Safety Mode: Off", Warning)]
  const SafetyUnknownLook := Look("Safety Mode: Unknown", Unknown)

  /** robot_mode: the seven recognised values. 1 and 6 deliberately share a row. */
  const ModeTable: map<int, ModeRow> := map[
    1 := ModeRow("Mode: Idle", Some(Normal), StopTask),
    2 := ModeRow("Mode: Coverage", Some(Normal), StopTask),
    3 := ModeRow("Mode: Litter Picking", None, StartTask),
    4 := ModeRow("Switching Mode", Some(Normal), StopTask),
    6 := ModeRow("Mode: Idle", Some(Normal), StopTask),
    7 := ModeRow("Error", Some(Warning), StopTask),
    0 := ModeRow("Mode: ?", Some(Unknown), StopTask)]

  /** Any other robot_mode: shown as unknown, and the blink task is left alone. */
  const UnlistedMode := ModeRow("Mode: ?", Some(Unknown), KeepTask)

  /** The blink-slot transition a task action stands for; spawned says
      whether a task creation, if one is attempted, succeeds. */
  function Act(a: TaskAction, s: Slot, spawned: bool): Slot {
    match a
    case KeepTask => s
    case StartTask => StartIfIdle(s, spawned)
    case StopTask => StopIfRunning(s)
  }

  /** Shared by lvgl_update_e_stop and lvgl_update_handbrake: add one style. */
  function UpdateAlarm(v: int): (cmds: seq<Cmd>)
    ensures forall w :: Apply(w, cmds) == Show(w, None, Some(Lookup(AlarmStyles, v, Unknown)), false)
  {
    var cmds := if v == 1 then [AddStyle(Warning)] else [AddStyle(Unknown)];
    ApplyShortAll(cmds);
    cmds
  }

  /** lvgl_update_e_stop. */
  function UpdateEStop(v: int): (cmds: seq<Cmd>)
    ensures forall w :: Apply(w, cmds) == Show(w, None, Some(Lookup(AlarmStyles, v, Unknown)), false)
  {
    UpdateAlarm(v)
  }

  /** lvgl_update_handbrake. */
  function UpdateHandbrake(v: int): (cmds: seq<Cmd>)
    ensures forall w :: Apply(w, cmds) == Show(w, None, Some(Lookup(AlarmStyles, v, Unknown)), false)
  {
    UpdateAlarm(v)
  }

  /** lvgl_update_autonomous: text and style from the table, label realigned. */
  function UpdateAutonomous(v: int): (cmds: seq<Cmd>)
    ensures var look := Lookup(AutonomyLooks, v, AutonomousLook);
      forall w :: Apply(w, cmds) == Show(w, Some(look.text), Some(look.style), true)
  {
    var cmds := if v == 1 then [SetText("Manual Control"), AddStyle(Blue), Centre]
                else [SetText("Autonomous Control"), AddStyle(Unknown), Centre];
    ApplyShortAll(cmds);
    cmds
  }

  /** lvgl_update_safety_mode: text and style from the table, label realigned. */
  function UpdateSafetyMode(v: int): (cmds: seq<Cmd>)
    ensures var look := Lookup(SafetyLooks, v, SafetyUnknownLook);
      forall w :: Apply(w, cmds) == Show(w, Some(look.text), Some(look.style), true)
  {
    var cmds :=
      if v == 1 then [SetText("Safety Mode: On"), AddStyle(Normal), Centre]
      else if v == 0 then [SetText("Safety Mode: Off"), AddStyle(Warning), Centre]
      else [SetText("Safety Mode: Unknown"), AddStyle(Unknown), Centre];
    ApplyShortAll(cmds);
    cmds
  }

  /** The branches of lvgl_update_robot_mode that stop the litter-picking
      task first and then show a label and a style. */
  function StopAndShow(s: Slot, text: string, style: Style): (r: Step)
    ensures r.slot == StopIfRunning(s)
    ensures forall w :: Apply(w, r.cmds) == Show(w, Some(text), Some(style), true)
  {
    var cmds := [SetText(text), AddStyle(style), Centre];
    ApplyShortAll(cmds);
    Step(cmds, if s.handle.Some? then Delete(s) else s)
  }

  /** lvgl_update_robot_mode: label, style and task action from the table,
      label realigned after every branch. */
  function UpdateRobotMode(v: int, s: Slot, spawned: bool): (r: Step)
    ensures var row := Lookup(ModeTable, v, UnlistedMode);
      && r.slot == Act(row.task, s, spawned)
      && forall w :: Apply(w, r.cmds) == Show(w, Some(row.text), row.style, true)
  {
    if v == 1 then StopAndShow(s, "Mode: Idle", Normal)
    else if v == 2 then StopAndShow(s, "Mode: Coverage", Normal)
    else if v == 3 then
      var cmds := [SetText("Mode: Litter Picking"), Centre];
      ApplyShortAll(cmds);
      Step(cmds, if s.handle.None? then Create(s, spawned) else s)
    else if v == 4 then StopAndShow(s, "Switching Mode", Normal)
    else if v == 6 then StopAndShow(s, "Mode: Idle", Normal)
    else if v == 7 then StopAndShow(s, "Error", Warning)
    else if v == 0 then StopAndShow(s, "Mode: ?", Unknown)
    else
      var cmds := [SetText("Mode: ?"), AddStyle(Unknown), Centre];
      ApplyShortAll(cmds);
      Step(cmds, s)
  }

  /** The tail of lvgl_update_battery_charge run after a running task has
      been deleted: detach normal and unknown, attach unknown again. */
  function StopRepaint(): (cmds: seq<Cmd>)
    ensures forall w :: Apply(w, cmds) == Show(Clear(w, {Normal, Unknown}), None, Some(Unknown), false)
  {
    var cmds := [RemoveStyle(Normal), RemoveStyle(Unknown), AddStyle(Unknown)];
    ApplyShortAll(cmds);
    assert forall ss: set<Style> :: ss - {Normal} - {Unknown} == ss - {Normal, Unknown};
    cmds
  }

  /** The effect of adding unknown and then, if a task was running, the
      repaint tail: the first add is subsumed by the tail. */
  lemma NotChargingEffect(w: Widget, running: bool)
    ensures running ==> Apply(w, [AddStyle(Unknown)] + StopRepaint())
                        == Show(Clear(w, {Normal, Unknown}), None, Some(Unknown), false)
    ensures !running ==> Apply(w, [AddStyle(Unknown)] + []) == Show(w, None, Some(Unknown), false)
  {
    var first := Show(w, None, Some(Unknown), false);
    ApplyShort(w, [AddStyle(Unknown)]);
    assert Apply(w, [AddStyle(Unknown)]) == first;
    ApplyConcat(w, [AddStyle(Unknown)], StopRepaint());
    ApplyConcat(w, [AddStyle(Unknown)], []);
    assert Apply(first, []) == first;
    assert first.styles - {Normal, Unknown} == w.styles - {Normal, Unknown};
  }

  /** lvgl_update_battery_charge. Charging starts the flashing task when the
      handle is NULL and touches no style. Anything else adds the unknown
      style; if a task was running it is deleted, the handle reset, normal
      and unknown detached and unknown attached again. */
  function UpdateBatteryCharge(v: int, s: Slot, spawned: bool): (r: Step)
    ensures v == 1 ==> r.slot == StartIfIdle(s, spawned) && forall w :: Apply(w, r.cmds) == w
    ensures v != 1 ==> r.slot == StopIfRunning(s)
    ensures v != 1 && s.handle.None? ==> forall w :: Apply(w, r.cmds) == Show(w, None, Some(Unknown), false)
    ensures v != 1 && s.handle.Some? ==>
      forall w :: Apply(w, r.cmds) == Show(Clear(w, {Normal, Unknown}), None, Some(Unknown), false)
  {
    if v == 1 then
      Step([], if s.handle.None? then Create(s, spawned) else s)
    else
      if s.handle.Some? then
        var cmds := [AddStyle(Unknown)] + StopRepaint();
        assert forall w :: Apply(w, cmds) == Show(Clear(w, {Normal, Unknown}), None, Some(Unknown), false) by {
          forall w ensures Apply(w, cmds) == Show(Clear(w, {Normal, Unknown}), None, Some(Unknown), false) {
            NotChargingEffect(w, true);
          }
        }
        Step(cmds, Delete(s))
      else
        var cmds := [AddStyle(Unknown)] + [];
        assert forall w :: Apply(w, cmds) == Show(w, None, Some(Unknown), false) by {
          forall w ensures Apply(w, cmds) == Show(w, None, Some(Unknown), false) {
            NotChargingEffect(w, false);
          }
        }
        Step(cmds, s)
  }

  /** robot_mode 0, 1, 2, 4, 6 and 7 stop a running litter-picking task and
      leave the handle NULL, then show their label and style. */
  lemma RecognisedModesStopBlink(v: int, s: Slot, spawned: bool, w: Widget)
    requires v in {0, 1, 2, 4, 6, 7}
    ensures var r := UpdateRobotMode(v, s, spawned);
      && r.slot.handle.None?
      && (Consistent(s) ==> r.slot.live == {})
      && (s.handle.None? ==> r.slot == s)
      && Apply(w, r.cmds).last.Some? && Apply(w, r.cmds).centred
  {
    assert v in ModeTable && ModeTable[v].task == StopTask && ModeTable[v].style.Some?;
  }

  /** robot_mode 3 shows "Mode: Litter Picking", applies no style, and
      creates a task only when none is running: repeated 3s never create a
      second one. A creation that fails leaves the handle NULL, so the next
      3 tries again. */
  lemma LitterPickingStartsOnce(s: Slot, spawned: bool, again: bool, w: Widget)
    ensures var r := UpdateRobotMode(3, s, spawned);
      var r2 := UpdateRobotMode(3, r.slot, again);
      && (s.handle.Some? ==> r.slot == s)
      && (spawned ==> r.slot.handle.Some? && r2.slot == r.slot)
      && (!spawned && s.handle.None? ==> r.slot == s)
      && (!spawned && s.handle.None? && again ==> r2.slot.handle.Some?)
      && (Consistent(s) ==> |r.slot.live| <= 1 && |r2.slot.live| <= 1)
      && Apply(w, r.cmds).text == "Mode: Litter Picking"
      && Apply(w, r.cmds).last == w.last && Apply(w, r.cmds).styles == w.styles
  {
    assert ModeTable[3] == ModeRow("Mode: Litter Picking", None, StartTask);
  }

  /** A robot_mode outside the seven listed values shows "Mode: ?" with the
      unknown style but does not stop a running litter-picking task. */
  lemma UnlistedModeKeepsBlink(v: int, s: Slot, spawned: bool, w: Widget)
    requires v !in {0, 1, 2, 3, 4, 6, 7}
    ensures var r := UpdateRobotMode(v, s, spawned);
      && r.slot == s
      && Apply(w, r.cmds) == Show(w, Some("Mode: ?"), Some(Unknown), true)
  {
    assert v !in ModeTable;
  }

  /** safety_mode values other than 0 and 1 always render as unknown. */
  lemma SafetyModeOtherIsUnknown(v: int, w: Widget)
    requires v != 0 && v != 1
    ensures Apply(w, UpdateSafetyMode(v)).text == "Safety Mode: Unknown"
    ensures Apply(w, UpdateSafetyMode(v)).last == Some(Unknown)
  {
    assert v !in SafetyLooks;
  }

  /** Stopping the battery blink leaves unknown as the final style, with
      normal detached; when nothing was running no handle changes. */
  lemma BatteryStopEndsUnknown(v: int, s: Slot, spawned: bool, w: Widget)
    requires v != 1
    ensures var r := UpdateBatteryCharge(v, s, spawned);
      && Apply(w, r.cmds).last == Some(Unknown)
      && Unknown in Apply(w, r.cmds).styles
      && (s.handle.Some? ==> Normal !in Apply(w, r.cmds).styles)
      && (s.handle.None? ==> r.slot == s)
      && r.slot.handle.None?
  {
    var r := UpdateBatteryCharge(v, s, spawned);
    if s.handle.Some? {
      assert Apply(w, r.cmds) == Show(Clear(w, {Normal, Unknown}), None, Some(Unknown), false);
    } else {
      assert Apply(w, r.cmds) == Show(w, None, Some(Unknown), false);
    }
  }
}

=== FILE: state_mirror.dfy ===
/** The state mirror: the ten telemetry and control values the MQTT side
    writes and the UI side reads (main/dv8_mqtt.h). Each field is an
    independent atomic cell; here a field store is one functional update. */
module StateMirror {

  /** The ten fields, in the order the header declares them. */
  datatype Field =
    | LinearX | AngularZ | BatteryPercentage
    | BrushSpeed | BatteryIsCharging | EStop | Handbrake | DirectStatus | RobotMode | SafetyMode

  /** The first three fields are `_Atomic(float)`; the rest are `_Atomic(int)`. */
  predicate IsFloat(f: Field) {
    f.LinearX? || f.AngularZ? || f.BatteryPercentage?
  }

  /** A snapshot of every field. Float fields are abstracted as reals. */
  datatype State = State(
    linearX: real, angularZ: real, batteryPercentage: real,
    brushSpeed: int, batteryIsCharging: int, eStop: int, handbrake: int,
    directStatus: int, robotMode: int, safetyMode: int)

  /** Zero-initialised globals, as before any message arrives. */
  const Initial: State := State(0.0, 0.0, 0.0, 0, 0, 0, 0, 0, 0, 0)

  /** C's conversion of a double to an int for values in range: the
      fractional part is discarded, rounding toward zero. */
  function TruncateToInt(x: real): (n: int)
    ensures 0.0 <= x ==> n as real <= x < n as real + 1.0
    ensures x < 0.0 ==> n as real - 1.0 < x <= n as real
    ensures x == x.Floor as real ==> n == x.Floor
  {
    if 0.0 <= x then x.Floor
    else
      var m := (-x).Floor;
      assert x == x.Floor as real ==> -x == (-x.Floor) as real && m == -x.Floor;
      -m
  }

  /** Reads a field; integer fields are widened to reals. */
  function Get(s: State, f: Field): real {
    match f
    case LinearX => s.linearX
    case AngularZ => s.angularZ
    case BatteryPercentage => s.batteryPercentage
    case BrushSpeed => s.brushSpeed as real
    case BatteryIsCharging => s.batteryIsCharging as real
    case EStop => s.eStop as real
    case Handbrake => s.handbrake as real
    case DirectStatus => s.directStatus as real
    case RobotMode => s.robotMode as real
    case SafetyMode => s.safetyMode as real
  }

  /** The value a field holds once the number v has been stored into it:
      float fields keep v, integer fields keep the truncated integer. */
  function Coerce(f: Field, v: real): (c: real)
    ensures IsFloat(f) ==> c == v
    ensures !IsFloat(f) ==> c == c.Floor as real && (c - v < 1.0 && v - c < 1.0)
    ensures !IsFloat(f) ==> (0.0 <= v ==> c <= v) && (v < 0.0 ==> v <= c)
    ensures !IsFloat(f) && v == v.Floor as real ==> c == v
  {
    if IsFloat(f) then v
    else
      var n := TruncateToInt(v);
      assert (n as real).Floor == n;
      n as real
  }

  /** `atomic_store` of the number v into field f. */
  function Store(s: State, f: Field, v: real): (r: State)
    ensures Get(r, f) == Coerce(f, v)
    ensures forall g :: g != f ==> Get(r, g) == Get(s, g)
  {
    match f
    case LinearX => s.(linearX := v)
    case AngularZ => s.(angularZ := v)
    case BatteryPercentage => s.(batteryPercentage := v)
    case BrushSpeed => s.(brushSpeed := TruncateToInt(v))
    case BatteryIsCharging => s.(batteryIsCharging := TruncateToInt(v))
    case EStop => s.(eStop := TruncateToInt(v))
    case Handbrake => s.(handbrake := TruncateToInt(v))
    case DirectStatus => s.(directStatus := TruncateToInt(v))
    case RobotMode => s.(robotMode := TruncateToInt(v))
    case SafetyMode => s.(safetyMode := TruncateToInt(v))
  }

  /** Two snapshots that agree on every field read are the same snapshot:
      the mirror holds nothing beyond its ten fields. */
  lemma Extensionality(a: State, b: State)
    requires forall f :: Get(a, f) == Get(b, f)
    ensures a == b
  {
    assert Get(a, LinearX) == Get(b, LinearX);
    assert Get(a, AngularZ) == Get(b, AngularZ);
    assert Get(a, BatteryPercentage) == Get(b, BatteryPercentage);
    assert Get(a, BrushSpeed) == Get(b, BrushSpeed);
    assert Get(a, BatteryIsCharging) == Get(b, BatteryIsCharging);
    assert Get(a, EStop) == Get(b, EStop);
    assert Get(a, Handbrake) == Get(b, Handbrake);
    assert Get(a, DirectStatus) == Get(b, DirectStatus);
    assert Get(a, RobotMode) == Get(b, RobotMode);
    assert Get(a, SafetyMode) == Get(b, SafetyMode);
  }

  /** Storing the same number twice leaves the state as storing it once. */
  lemma StoreIdempotent(s: State, f: Field, v: real)
    ensures Store(Store(s, f, v), f, v) == Store(s, f, v)
  {
    var once := Store(s, f, v);
    var twice := Store(once, f, v);
    forall g ensures Get(twice, g) == Get(once, g) {
    }
    Extensionality(twice, once);
  }

  /** Stores into different fields do not interfere: their order is irrelevant. */
  lemma StoresCommute(s: State, f: Field, v: real, g: Field, u: real)
    requires f != g
    ensures Store(Store(s, f, v), g, u) == Store(Store(s, g, u), f, v)
  {
    var a := Store(Store(s, f, v), g, u);
    var b := Store(Store(s, g, u), f, v);
    forall h ensures Get(a, h) == Get(b, h) {
    }
    Extensionality(a, b);
  }
}

=== FILE: widgets.dfy ===
/** The observable side of the LVGL widgets the dashboard drives: each
    dashboard tile is a button with a label. An update or a blink half-tick
    issues a sequence of widget commands; Apply gives their meaning. */
module Widgets {
  import opened Wrappers

  /** The four shared styles (style_normal, style_unknown, style_warning, style_blue). */
  datatype Style = Normal | Unknown | Warning | Blue

  /** One call into the widget library. */
  datatype Cmd =
    | SetText(text: string)       // lv_label_set_text on the tile's label
    | AddStyle(style: Style)      // lv_obj_add_style on the tile's button
    | RemoveStyle(style: Style)   // lv_obj_remove_style on the tile's button
    | Centre                      // lv_obj_center on the tile's label

  /** What can be observed of a tile: the label text, the styles attached to
      the button, the style most recently added, and whether the label has
      been realigned since its text last changed. */
  datatype Widget = Widget(text: string, styles: set<Style>, last: Option<Style>, centred: bool)

  /** The effect of one command. */
  function Exec(w: Widget, c: Cmd): Widget {
    match c
    case SetText(t) => w.(text := t, centred := false)
    case AddStyle(st) => w.(styles := w.styles + {st}, last := Some(st))
    case RemoveStyle(st) => w.(styles := w.styles - {st})
    case Centre => w.(centred := true)
  }

  /** The effect of a command sequence, executed in order. */
  function Apply(w: Widget, cmds: seq<Cmd>): Widget
    decreases |cmds|
  {
    if cmds == [] then w else Apply(Exec(w, cmds[0]), cmds[1..])
  }

  /** Reference effect of a tile update: optionally show a text, optionally
      add one style, optionally realign the label; nothing else changes. */
  function Show(w: Widget, text: Option<string>, style: Option<Style>, centre: bool): Widget {
    Widget(
      if text.Some? then text.value else w.text,
      if style.Some? then w.styles + {style.value} else w.styles,
      if style.Some? then style else w.last,
      centre || (text.None? && w.centred))
  }

  /** Reference effect of detaching a set of styles from the button. */
  function Clear(w: Widget, gone: set<Style>): Widget {
    w.(styles := w.styles - gone)
  }

  /** Unfolds Apply over a short command sequence. */
  lemma ApplyShort(w: Widget, cmds: seq<Cmd>)
    requires 1 <= |cmds| <= 4
    ensures |cmds| == 1 ==> Apply(w, cmds) == Exec(w, cmds[0])
    ensures |cmds| == 2 ==> Apply(w, cmds) == Exec(Exec(w, cmds[0]), cmds[1])
    ensures |cmds| == 3 ==> Apply(w, cmds) == Exec(Exec(Exec(w, cmds[0]), cmds[1]), cmds[2])
    ensures |cmds| == 4 ==> Apply(w, cmds) == Exec(Exec(Exec(Exec(w, cmds[0]), cmds[1]), cmds[2]), cmds[3])
  {
    var w1 := Exec(w, cmds[0]);
    assert Apply(w, cmds) == Apply(w1, cmds[1..]);
    if |cmds| > 1 {
      var w2 := Exec(w1, cmds[1]);
      assert Apply(w1, cmds[1..]) == Apply(w2, cmds[2..]);
      if |cmds| > 2 {
        var w3 := Exec(w2, cmds[2]);
        assert Apply(w2, cmds[2..]) == Apply(w3, cmds[3..]);
        if |cmds| > 3 {
          assert Apply(w3, cmds[3..]) == Apply(Exec(w3, cmds[3]), cmds[4..]);
        }
      }
    }
  }

  /** ApplyShort for every starting widget at once. */
  lemma ApplyShortAll(cmds: seq<Cmd>)
    requires 1 <= |cmds| <= 4
    ensures |cmds| == 1 ==> forall w :: Apply(w, cmds) == Exec(w, cmds[0])
    ensures |cmds| == 2 ==> forall w :: Apply(w, cmds) == Exec(Exec(w, cmds[0]), cmds[1])
    ensures |cmds| == 3 ==> forall w :: Apply(w, cmds) == Exec(Exec(Exec(w, cmds[0]), cmds[1]), cmds[2])
    ensures |cmds| == 4 ==> forall w :: Apply(w, cmds) == Exec(Exec(Exec(Exec(w, cmds[0]), cmds[1]), cmds[2]), cmds[3])
  {
    forall w {
      ApplyShort(w, cmds);
    }
  }

  /** Running two command sequences one after the other is running their concatenation. */
  lemma {:induction false} ApplyConcat(w: Widget, a: seq<Cmd>, b: seq<Cmd>)
    ensures Apply(w, a + b) == Apply(Apply(w, a), b)
    decreases |a|
  {
    if a == [] {
      assert a + b == b;
    } else {
      assert (a + b)[0] == a[0];
      assert (a + b)[1..] == a[1..] + b;
      ApplyConcat(Exec(w, a[0]), a[1..], b);
    }
  }
}

=== FILE: wrappers.dfy ===
/** Optional values: a parse that may fail, a style that may not be applied,
    a task handle that may be NULL. */
module Wrappers {

  datatype Option<+T> = None | Some(value: T)
}
